=== FILE: README.md ===
# Movie and series catalogue API: a Dafny model of its request handlers

The service is a REST API for a catalogue of movies and series, with users, ratings,
notes, comments, shares between users and scheduled viewings. Every handler parses
its path and body, runs a few existence checks against the database, performs one
write and returns JSON with a status code. Read responses, user, movie, series and
event updates, a created scheduled viewing, and created or updated notes and comments
pass their date columns through two formatters: a date becomes `DD-MM-YYYY` and a
timestamp `DD-MM-YYYY HH:mm:ss`. Other writes answer with the row as the database
returned it, dates unformatted: POST /users (gestao-filmes-series/index.js:57),
POST /movies (219), POST /series (347), POST and PUT of ratings (422, 443, 533, 600),
POST and PUT of movie categories (865, 886) and of series categories (961, 982),
POST /shares (1040) and POST /auth/register (1717).

This project models:

- the two date formatters (`dates.dfy`, module `Dates`), over the calendar fields a
  JavaScript `Date` gives in local time. Each formatter has a parser as its partner.
  The model proves that every in-range date and timestamp reads back to the same fields.
- the pure decisions inside the handlers (`rules.dfy`, module `Rules`):
  - the rating range guard;
  - JavaScript truthiness of optional body fields;
  - the "as many categories found as ids sent" check, and a proof of what it accepts;
  - the partial-update merge of movies and series;
  - the shaping of a movie, a series or a scheduled viewing for the client.
- the write handlers, the login and one read handler (`store.dfy`, module `Api`), as
  methods of a `Store` class. The class holds one map from id to row per database table.
  Each method runs the source's checks in the source's order and returns at the first
  failure. Otherwise it performs its one write. Its `modifies` clause names the only
  tables it may change.
  - `Store.Valid()` is the invariant every handler keeps: every key and every category
    relation row's owner is below the next id to be handed out, emails are unique, and
    every stored rating lies in 0..10 (under the integer reading of ratings described
    under "Left out"). Each create answers with the next id and advances it, so in the
    model ids are positive and never reused, even after a delete.
- the rows, request bodies and responses (`records.dfy`, module `Records`). The small
  `Option` type is in `option.dfy`.

The movie and series versions of the rating, note and comment handlers differ only in
their table and their wording. Each such pair is one method with a `Kind` argument. The
two tables live in a `PerKind` pair.

Not every nested route compares the child row with the movie or series in its path.
The rating GET (gestao-filmes-series/index.js:482, 571) and comment update and delete
(index.js:1513, 1543, 1654, 1682) do. Rating update and delete (index.js:438-441, 502,
595-598, 611) and note update and delete (index.js:1168-1170, 1188, 1253-1256, 1273)
look the row up by its own id alone. `UpdateRating`, `DeleteRating`, `UpdateNote` and
`DeleteNote` take the path's parent id and ignore it, as the code does.

Behaviour worth knowing, as the model states it:

- the category check compares the number of distinct rows found with the length of the
  list sent. So a list that repeats an existing category id is refused with "one or more
  categories do not exist" (`Rules.CountCheckMeaning`).
- in a partial update, an empty string or a season count of 0 is falsy and is never
  written (`Rules.PatchSeries`, `Rules.FalsyPatchKeepsSeries`).
- a movie or series id of 0 in a share or an event is falsy. It is neither checked nor
  stored.
- the year is printed without padding. The output is exactly `DD-MM-YYYY` only for
  years 1000 to 9999 (`Dates.FourDigitYearLengths`).

## Model

| member | source | states |
|---|---|---|
| `Dates.NatToString` | gestao-filmes-series/index.js:18 | String(n): at least one decimal digit, a single digit exactly below 10, no leading zero except for 0; the value read back is `NatToStringValue` |
| `Dates.IntToString` | gestao-filmes-series/index.js:20-21 | `${year}`: at least two characters unless the year is a single digit from 0 to 9; the year read back is `IntToStringRoundTrip` |
| `Dates.PadStart` | gestao-filmes-series/index.js:18-19 | padStart with a one-character fill: the result is the longer of the input and the width, ends with the input, and is filled in front |
| `Dates.Pad2` | gestao-filmes-series/index.js:18-19 | String(n).padStart(2,'0'); what it gives is stated by `Pad2Digits` and `PadStart` |
| `Dates.Pad2Digits` | gestao-filmes-series/index.js:18-19 | String(n).padStart(2,'0') is two digits denoting n for every n below 100, and leaves values of 10 and more unpadded |
| `Dates.NatToStringValue` | gestao-filmes-series/index.js:18 | the decimal digits String(n) writes read back to n |
| `Dates.IntToStringRoundTrip` | gestao-filmes-series/index.js:20-21 | the year, printed as-is (with a sign when negative), reads back to the same year |
| `Dates.FormatDate` | gestao-filmes-series/index.js:16-22 | day, month index + 1 and year joined by '-'; the DD-MM-Y shape and the round trip are stated by `DateRoundTrip`, the exact length for four-digit years by `FourDigitYearLengths` |
| `Dates.DateRoundTrip` | gestao-filmes-series/index.js:16-22 | for every in-range date, formatPortugueseDate gives the DD-MM-Y shape and parses back to the same day, month index and year |
| `Dates.FormatDateTime` | gestao-filmes-series/index.js:25-34 | the date fields, a space, then hours, minutes and seconds joined by ':'; that it is the date string followed by " HH:mm:ss" is stated by `DateTimeExtendsDate`, the round trip by `DateTimeRoundTrip` |
| `Dates.DateTimeExtendsDate` | gestao-filmes-series/index.js:25-34 | formatPortugueseDateTime is the date string, one space, then HH:mm:ss (nine more characters) |
| `Dates.DateTimeRoundTrip` | gestao-filmes-series/index.js:25-34 | every in-range timestamp parses back from its DD-MM-YYYY HH:mm:ss string to the same six fields |
| `Dates.FormatDateTimeInjective` | gestao-filmes-series/index.js:25-34 | two in-range timestamps that print the same are the same |
| `Dates.FourDigitYearLengths` | gestao-filmes-series/index.js:16-34 | for four-digit years the outputs are exactly 10 and 19 characters long |
| `Rules.RatingRejected` | gestao-filmes-series/index.js:403-405 | the range guard `rating < 0 \|\| rating > 10`, repeated at index.js:433, 514 and 590; the ensures of `Api.Store.CreateRating` and `Api.Store.UpdateRating` state that it answers 400 and writes nothing |
| `Rules.IdOrNull` | gestao-filmes-series/index.js:1035-1036 | `id ? parseInt(id) : null`: an id is stored exactly when it is truthy (present and not 0) |
| `Rules.TextOrNull` | gestao-filmes-series/index.js:208 | `description \|\| null`: a text is stored exactly when it is non-empty |
| `Rules.SetIfDefined` | gestao-filmes-series/index.js:1168-1171 | a field left undefined in update data keeps its value; a supplied one replaces it |
| `Rules.CategoriesAccepted` | gestao-filmes-series/index.js:189-199 | no list, an empty list, or as many categories found as ids sent; what it accepts is `CountCheckMeaning` |
| `Rules.FoundIds` | gestao-filmes-series/index.js:190-195 | the categories findMany returns are exactly the requested ids that exist, each once |
| `Rules.CountCheckMeaning` | gestao-filmes-series/index.js:189-199 | found count equals requested count iff every requested id exists and no id repeats |
| `Rules.LinksFor` | gestao-filmes-series/index.js:209-215 | the relation rows created pair the new movie with each requested category and nothing else; none without a list |
| `Rules.LinksOnePerCategory` | gestao-filmes-series/index.js:189-215 | once the category check passes, exactly one relation row per requested id is created, each naming an existing category |
| `Rules.NewMovie` | gestao-filmes-series/index.js:203-217 | the created movie keeps the title, genre and release date sent, and has a description exactly when a non-empty one was sent, that one |
| `Rules.NewSeries` | gestao-filmes-series/index.js:330-345 | the created series keeps the title, genre, release date and season count sent, and has a description exactly when a non-empty one was sent, that one |
| `Rules.PatchMovie` | gestao-filmes-series/index.js:231-239 | each field takes the supplied value when it is truthy, and changes only then |
| `Rules.PatchSeries` | gestao-filmes-series/index.js:359-368 | as for movies, with seasonsCount overwritten only when non-zero |
| `Rules.PatchMovieIdempotent` | gestao-filmes-series/index.js:231-239 | applying the same partial update twice equals applying it once |
| `Rules.PatchSeriesIdempotent` | gestao-filmes-series/index.js:362-368 | applying the same partial update twice equals applying it once |
| `Rules.FalsyPatchKeepsSeries` | gestao-filmes-series/index.js:362-368 | an update whose fields are all falsy leaves the series unchanged |
| `Rules.ViewMovie` | gestao-filmes-series/index.js:242-247 | the response keeps the id, title, genre and description of the stored movie |
| `Rules.ViewMovieKeepsDate` | gestao-filmes-series/index.js:173-178 | the release date string of a movie response parses back to the stored calendar day |
| `Rules.ViewSeries` | gestao-filmes-series/index.js:371-376 | the response keeps the id, title, genre, description and season count of the stored series |
| `Rules.ViewSeriesKeepsDate` | gestao-filmes-series/index.js:371-376 | the release date string of a series response parses back to the stored calendar day |
| `Rules.ViewEvent` | gestao-filmes-series/index.js:648-653 | the response keeps the id, user, movie, series and note of the created event |
| `Rules.ViewEventKeepsDate` | gestao-filmes-series/index.js:648-653 | the event date timestamp of the response parses back to all six stored fields |
| `Api.Store.DeleteUser` | gestao-filmes-series/index.js:127-137 | 404 and no change on a miss; otherwise only that user row is removed |
| `Api.Store.GetMovie` | gestao-filmes-series/index.js:161-181 | 404 "Filme não encontrado" for a missing id; otherwise 200 with the row and its formatted release date |
| `Api.Store.CreateMovie` | gestao-filmes-series/index.js:184-223 | a non-empty category list that fails the count check gives 400 and writes no movie and no relation row; otherwise 201 under the next id, which then advances, with the movie and its relation rows, none of which existed before |
| `Api.Store.UpdateMovie` | gestao-filmes-series/index.js:226-251 | 404 and no change when the movie is missing; otherwise only that movie becomes its partial update |
| `Api.Store.DeleteMovie` | gestao-filmes-series/index.js:254-265 | 404 and no change on a miss; otherwise only that movie row is removed |
| `Api.Store.CreateSeries` | gestao-filmes-series/index.js:311-351 | the same category check against series categories; 400 writes nothing, success writes the series under the next id, which then advances, and its relation rows, none of which existed before |
| `Api.Store.UpdateSeries` | gestao-filmes-series/index.js:354-380 | 404 and no change when missing; otherwise only that series becomes its partial update |
| `Api.Store.DeleteSeries` | gestao-filmes-series/index.js:383-394 | 404 and no change on a miss; otherwise only that series row is removed |
| `Api.Store.CreateRating` | gestao-filmes-series/index.js:399-426 | out of 0..10 gives 400 whatever the tables hold; then a missing user, then a missing movie or series, gives 404; no row on any failure; otherwise one row under the next id, which then advances (series twin at 510-537) |
| `Api.Store.UpdateRating` | gestao-filmes-series/index.js:429-447 | the range check first, then 404 for an unknown rating id; the path's parent id is never compared; only that rating's value changes (series twin at 586-604) |
| `Api.Store.DeleteRating` | gestao-filmes-series/index.js:498-507 | 404 and no change for an unknown rating id; otherwise only that rating is removed, whatever the path's parent |
| `Api.Store.CreateEvent` | gestao-filmes-series/index.js:621-657 | user, then a truthy movie id, then a truthy series id are checked; the first miss is the 404 and writes nothing; otherwise 201 with the event under the next id (falsy ids and an empty note stored as null) and its date formatted as a timestamp |
| `Api.Store.DeleteEvent` | gestao-filmes-series/index.js:800-811 | 404 and no change on a miss; otherwise only that event is removed |
| `Api.Store.CreateShare` | gestao-filmes-series/index.js:1008-1044 | sender, recipient, optional movie, optional series in that order; the first miss decides the 404 message and writes nothing; otherwise one share under the next id, which then advances |
| `Api.Store.DeleteShare` | gestao-filmes-series/index.js:1097-1106 | 404 and no change on a miss; otherwise only that share is removed |
| `Api.Store.CreateNote` | gestao-filmes-series/index.js:1133-1160 | user before movie or series; a miss is a 404 and writes nothing; otherwise one note under the next id, which then advances (series twin at 1218-1245) |
| `Api.Store.UpdateNote` | gestao-filmes-series/index.js:1163-1181 | 404 and no change for an unknown note id, with no parent check; otherwise only that note's text changes, kept when none is sent |
| `Api.Store.DeleteNote` | gestao-filmes-series/index.js:1184-1193 | 404 and no change for an unknown note id; otherwise only that note is removed |
| `Api.Store.CreateComment` | gestao-filmes-series/index.js:1473-1500 | user before movie or series; a miss is a 404 and writes nothing; otherwise one comment under the next id, which then advances (series twin at 1615-1642) |
| `Api.Store.UpdateComment` | gestao-filmes-series/index.js:1503-1531 | 404 and no change when the comment is missing or belongs to another movie or series; otherwise only that comment's text changes (series twin at 1645-1671) |
| `Api.Store.DeleteComment` | gestao-filmes-series/index.js:1534-1556 | 404 and no change when the comment is missing or belongs to another parent; otherwise only that comment is removed (series twin at 1674-1694) |
| `Api.Store.Login` | gestao-filmes-series/index.js:1724-1749 | unknown email gives 404; a failed password comparison gives 401; otherwise 200 with the token of exactly the user found by that email |

## Left out

- Express routing, CORS, JSON body parsing and `app.listen`: plumbing around the handlers.
- The database engine itself. Joins (`include`, `select`) and the CreatedAt/UpdatedAt
  columns it fills in are not modelled, nor the formatting of CreatedAt and UpdatedAt in
  the note and comment responses. Ids come from one counter shared by all tables; the
  model's counter never hands out an id twice. The database schema, and so how the real
  database numbers rows, is not part of this model.
- Database errors other than a missing row are not modelled. That covers foreign-key
  failures on delete, missing required columns on create, an unparsable date, and
  duplicate emails. The handlers' catch blocks (400 on create, 404 on update and delete,
  500 on reads and comment writes) appear only where a missing row triggers them.
- Password hashing, password comparison and token signing. Login takes the comparison
  and the signing as function parameters.
- Turning a stored instant into local calendar fields, and the "NaN" strings an invalid
  date prints. The formatters take the fields as input.
- `parseInt` of arbitrary text. Ids and ratings are integers. Three consequences are not
  modelled. A fractional rating is truncated by `parseInt`. A missing rating passes the
  range guard, because comparisons with undefined are false. A rating sent as text such as
  "11abc" also passes the guard (index.js:403, 433, 514, 590), since both comparisons with
  NaN are false, and `parseInt` then stores 11 (index.js:418, 440, 529, 597). So the
  0..10 part of `Store.Valid()` holds only under the integer reading of the rating.
- Read endpoints other than GET /movies/:movieId. They map the formatters over the rows
  they find, and `Rules.ViewMovie` and `Rules.ViewSeries` show that shaping once. Their
  own checks are not modelled:
  - a 404 for a missing row on the other get-by-id routes (index.js:90, 297, 725, 842, 938);
  - the rating GETs compare the rating's movie or series with the path (482, 571);
  - GET /users/:userId/scheduling answers 404 for an unknown user (664-665);
  - GET /users/:userId/scheduling/:eventId checks the user (748) and compares the event's
    owner with the path (759-761);
  - the per-user note routes check the user (1288, 1339); GET /users/:userId/notes/:noteId
    looks the note up among that user's movie notes, then series notes, and answers 404
    when neither has it (1343-1377);
  - GET /users/:userId/movies/comments/:commentId checks the user (1418) and the
    comment's owner (1428-1429);
  - GET /users/:userId/series/comments answers 404 for an empty list (1594-1596).
- User creation and update, registration, category create/update/delete, and event
  update are not modelled. Email uniqueness is kept as part of `Store.Valid()`, the
  guarantee the database's unique index gives.
- Interleaving of concurrent requests, including a row deleted between a handler's
  existence check and its write.
- The `authenticateToken` middleware: it is not attached to any route.
- Cascades on delete: the real behaviour depends on the database schema, which is not
  part of this model. Deleting a user, movie or series leaves its dependent rows in place.

=== FILE: dates.dfy ===
/**
 * The two display formatters the read responses and most update responses use: a date
 * as "DD-MM-YYYY" and a timestamp as "DD-MM-YYYY HH:mm:ss" (index.js, formatPortugueseDate and
 * formatPortugueseDateTime). Both read the calendar fields of a JavaScript Date
 * in the server's local time zone; here those fields are the input. Each formatter
 * has a parser as its partner, and the round trip is proved for every in-range input.
 */
module Dates {
  import opened Opt

  /** A calendar day: getFullYear, getMonth (0 for January) and getDate. */
  datatype CalendarDate = CalendarDate(year: int, monthIndex: nat, day: nat)

  /** A calendar day and a time of day: the date plus getHours, getMinutes and getSeconds. */
  datatype LocalTime = LocalTime(date: CalendarDate, hours: nat, minutes: nat, seconds: nat)

  /** The ranges the getters of a valid Date stay within. */
  predicate DateInRange(d: CalendarDate) {
    1 <= d.day <= 31 && d.monthIndex <= 11
  }

  predicate InRange(t: LocalTime) {
    DateInRange(t.date) && t.hours <= 23 && t.minutes <= 59 && t.seconds <= 59
  }

  predicate IsDigit(c: char) {
    '0' <= c <= '9'
  }

  predicate AllDigits(s: string) {
    forall i :: 0 <= i < |s| ==> IsDigit(s[i])
  }

  function DigitValue(c: char): (d: nat)
    requires IsDigit(c)
    ensures d < 10
  {
    (c as int) - ('0' as int)
  }

  function DigitChar(d: nat): (c: char)
    requires d < 10
    ensures IsDigit(c) && DigitValue(c) == d
  {
    (('0' as int) + d) as char
  }

  /** String(n) for a non-negative integer: its decimal digits, with no leading zero. */
  function NatToString(n: nat): (s: string)
    ensures 1 <= |s| && AllDigits(s)
    ensures s[0] == '0' ==> n == 0
    ensures n < 10 <==> |s| == 1
    decreases n
  {
    if n < 10 then [DigitChar(n)] else NatToString(n / 10) + [DigitChar(n % 10)]
  }

  /** The number a string of decimal digits denotes; a leading zero adds nothing. */
  function DigitsValue(s: string): nat
    requires AllDigits(s)
  {
    if s == [] then 0 else DigitsValue(s[..|s| - 1]) * 10 + DigitValue(s[|s| - 1])
  }

  /** Reading back the digits String(n) writes gives n. */
  lemma {:induction false} NatToStringValue(n: nat)
    ensures DigitsValue(NatToString(n)) == n
    decreases n
  {
    if n >= 10 {
      var s := NatToString(n);
      assert s[..|s| - 1] == NatToString(n / 10);
      NatToStringValue(n / 10);
    }
  }

  /** String(y) for the year, which may be negative; it is never padded. */
  function IntToString(y: int): (s: string)
    ensures 2 <= |s| || (0 <= y < 10 && |s| == 1)
  {
    if y < 0 then "-" + NatToString(-y) else NatToString(y)
  }

  /** An optionally signed decimal integer; anything else is not a number. */
  function ParseInt(s: string): Option<int> {
    if 2 <= |s| && s[0] == '-' && AllDigits(s[1..]) then Some(0 - DigitsValue(s[1..]) as int)
    else if 1 <= |s| && AllDigits(s) then Some(DigitsValue(s))
    else None
  }

  /** A '-' followed by digits reads as the negated value of the digits. */
  lemma ParseNegative(s: string, n: string, v: nat)
    requires 1 <= |n| && AllDigits(n) && DigitsValue(n) == v && s == "-" + n
    ensures ParseInt(s) == Some(-(v as int))
  {
    assert s[1..] == n;
  }

  /** Digits alone read as their value. */
  lemma ParseDigits(n: string)
    requires 1 <= |n| && AllDigits(n)
    ensures ParseInt(n) == Some(DigitsValue(n))
  {
    assert IsDigit(n[0]);
  }

  /** String(y) for a negative year reads back to that year. */
  lemma NegativeYearRoundTrip(y: int)
    requires y < 0
    ensures ParseInt(IntToString(y)) == Some(y)
  {
    NatToStringValue(-y);
    ParseNegative(IntToString(y), NatToString(-y), -y);
  }

  /** String(y) for a year from 0 on reads back to that year. */
  lemma NonNegativeYearRoundTrip(y: int)
    requires y >= 0
    ensures ParseInt(IntToString(y)) == Some(y)
  {
    NatToStringValue(y);
    ParseDigits(IntToString(y));
  }

  lemma IntToStringRoundTrip(y: int)
    ensures ParseInt(IntToString(y)) == Some(y)
  {
    if y < 0 {
      NegativeYearRoundTrip(y);
    } else {
      NonNegativeYearRoundTrip(y);
    }
  }

  /** String.prototype.padStart with a one-character fill: `fill` is put in front of `s`
      until it is `width` characters long; a string already that long is left alone. */
  function PadStart(s: string, width: nat, fill: char): (r: string)
    ensures |r| == if |s| >= width then |s| else width
    ensures r[|r| - |s|..] == s
    ensures forall i :: 0 <= i < |r| - |s| ==> r[i] == fill
  {
    if |s| >= width then s else seq(width - |s|, _ => fill) + s
  }

  /** String(n).padStart(2, '0'). */
  function Pad2(n: nat): string {
    PadStart(NatToString(n), 2, '0')
  }

  /** Pad2 gives two digits denoting n for every n below 100, and from 10 on the digits of
      String(n) unchanged. */
  lemma Pad2Digits(n: nat)
    ensures AllDigits(Pad2(n))
    ensures n < 100 ==> |Pad2(n)| == 2 && DigitsValue(Pad2(n)) == n
    ensures n >= 10 ==> Pad2(n) == NatToString(n)
  {
    var s := NatToString(n);
    NatToStringValue(n);
    if n < 10 {
      assert Pad2(n) == ['0'] + s;
      assert (['0'] + s)[..1] == ['0'];
    } else {
      assert n < 100 ==> |NatToString(n / 10)| == 1;
    }
  }

  /** formatPortugueseDate: day and month+1 padded to two digits, then the year as
      String writes it, joined by '-'. */
  function FormatDate(t: LocalTime): string {
    Pad2(t.date.day) + "-" + Pad2(t.date.monthIndex + 1) + "-" + IntToString(t.date.year)
  }

  /** formatPortugueseDateTime: the same three date fields, a space, then hours, minutes and
      seconds padded to two digits and joined by ':'. Written out in full, as the source
      repeats the date part rather than calling formatPortugueseDate. */
  function FormatDateTime(t: LocalTime): string {
    Pad2(t.date.day) + "-" + Pad2(t.date.monthIndex + 1) + "-" + IntToString(t.date.year)
      + " " + Pad2(t.hours) + ":" + Pad2(t.minutes) + ":" + Pad2(t.seconds)
  }

  /** "DD-MM-Y…": two digits, '-', two digits, '-', then a signed integer. */
  predicate DateShaped(s: string) {
    && 7 <= |s|
    && AllDigits(s[..2]) && s[2] == '-'
    && AllDigits(s[3..5]) && s[5] == '-'
    && ParseInt(s[6..]).Some?
  }

  /** Reads a "DD-MM-YYYY" string back into the calendar fields it was written from. */
  function ParseDate(s: string): Option<CalendarDate> {
    if DateShaped(s) && DigitsValue(s[3..5]) >= 1 then
      Some(CalendarDate(ParseInt(s[6..]).value, DigitsValue(s[3..5]) - 1, DigitsValue(s[..2])))
    else
      None
  }

  /** " HH:mm:ss": a space, then three two-digit fields joined by ':'. */
  predicate ClockShaped(s: string) {
    && |s| == 9 && s[0] == ' '
    && AllDigits(s[1..3]) && s[3] == ':'
    && AllDigits(s[4..6]) && s[6] == ':'
    && AllDigits(s[7..9])
  }

  /** Reads " HH:mm:ss" back into hours, minutes and seconds. */
  function ParseClock(s: string): Option<(nat, nat, nat)> {
    if ClockShaped(s) then Some((DigitsValue(s[1..3]), DigitsValue(s[4..6]), DigitsValue(s[7..9])))
    else None
  }

  /** Reads a "DD-MM-YYYY HH:mm:ss" string back into the fields it was written from: the
      last nine characters are the clock, everything before them the date. */
  function ParseDateTime(s: string): Option<LocalTime> {
    if |s| < 9 then None
    else
      match (ParseDate(s[..|s| - 9]), ParseClock(s[|s| - 9..]))
      case (Some(d), Some((h, m, sec))) => Some(LocalTime(d, h, m, sec))
      case _ => None
  }

  /** Where the three parts of a date string sit once they are joined by '-'. */
  lemma DateParts(s: string, p: string, q: string, y: string)
    requires |p| == 2 && |q| == 2 && s == p + "-" + q + "-" + y
    ensures |s| == 6 + |y| && s[..2] == p && s[2] == '-' && s[3..5] == q && s[5] == '-' && s[6..] == y
  {
  }

  /** Two two-digit fields and a year joined by '-' read back field by field. */
  lemma ParseDateParts(s: string, p: string, q: string, y: string, day: nat, month: nat, year: int)
    requires |p| == 2 && |q| == 2 && s == p + "-" + q + "-" + y
    requires AllDigits(p) && AllDigits(q) && DigitsValue(p) == day && DigitsValue(q) == month
    requires 1 <= month && ParseInt(y) == Some(year)
    ensures DateShaped(s)
    ensures ParseDate(s) == Some(CalendarDate(year, month - 1, day))
  {
    DateParts(s, p, q, y);
  }

  /** Every in-range date is printed in the DD-MM-YYYY shape and reads back to the same
      day, month and year. */
  lemma DateRoundTrip(t: LocalTime)
    requires DateInRange(t.date)
    ensures DateShaped(FormatDate(t))
    ensures ParseDate(FormatDate(t)) == Some(t.date)
  {
    IntToStringRoundTrip(t.date.year);
    Pad2Digits(t.date.day);
    Pad2Digits(t.date.monthIndex + 1);
    ParseDateParts(FormatDate(t), Pad2(t.date.day), Pad2(t.date.monthIndex + 1), IntToString(t.date.year),
                   t.date.day, t.date.monthIndex + 1, t.date.year);
  }

  /** Where the date and the three clock fields sit once they are joined by ' ' and ':'. */
  lemma ClockParts(x: string, d: string, h: string, m: string, sec: string)
    requires |h| == 2 && |m| == 2 && |sec| == 2
    requires x == d + " " + h + ":" + m + ":" + sec
    ensures |x| == |d| + 9
    ensures x[..|d|] == d
    ensures x[|d|..] == " " + h + ":" + m + ":" + sec
  {
    var clock := " " + h + ":" + m + ":" + sec;
    assert x == d + clock;
  }

  /** A date string followed by a well-formed clock parses field by field. */
  lemma ParseClockParts(x: string, d: string, h: string, m: string, sec: string, day: CalendarDate)
    requires |h| == 2 && |m| == 2 && |sec| == 2
    requires AllDigits(h) && AllDigits(m) && AllDigits(sec)
    requires ParseDate(d) == Some(day)
    requires x == d + " " + h + ":" + m + ":" + sec
    ensures ParseDateTime(x) == Some(LocalTime(day, DigitsValue(h), DigitsValue(m), DigitsValue(sec)))
  {
    var clock := " " + h + ":" + m + ":" + sec;
    ClockParts(x, d, h, m, sec);
    ClockRoundTrip(h, m, sec);
    assert x[..|x| - 9] == d;
    assert x[|x| - 9..] == clock;
  }

  /** A clock written from three two-digit fields reads back to their values. */
  lemma ClockRoundTrip(h: string, m: string, sec: string)
    requires |h| == 2 && |m| == 2 && |sec| == 2
    requires AllDigits(h) && AllDigits(m) && AllDigits(sec)
    ensures ParseClock(" " + h + ":" + m + ":" + sec) == Some((DigitsValue(h), DigitsValue(m), DigitsValue(sec)))
  {
    var clock := " " + h + ":" + m + ":" + sec;
    var c1 := " " + h;
    var c3 := c1 + ":" + m;
    assert clock == c3 + ":" + sec;
    assert c3[..3] == c1 && c3[3] == ':' && c3[4..] == m;
    assert clock[..6] == c3 && clock[6] == ':' && clock[7..] == sec;
    assert clock[1..3] == c1[1..] == h;
    assert clock[4..6] == c3[4..] == m;
    assert clock[7..9] == clock[7..] == sec;
    assert ClockShaped(clock);
  }

  /** The three clock fields of an in-range timestamp are two characters each. */
  lemma ClockLengths(t: LocalTime)
    requires InRange(t)
    ensures |Pad2(t.hours)| == 2 && |Pad2(t.minutes)| == 2 && |Pad2(t.seconds)| == 2
  {
    Pad2Digits(t.hours);
    Pad2Digits(t.minutes);
    Pad2Digits(t.seconds);
  }

  /** The date-time string is the date string, one space, then "HH:mm:ss". */
  lemma DateTimeExtendsDate(t: LocalTime)
    requires InRange(t)
    ensures |FormatDateTime(t)| == |FormatDate(t)| + 9
    ensures FormatDateTime(t)[..|FormatDate(t)|] == FormatDate(t)
    ensures FormatDateTime(t)[|FormatDate(t)|..] == " " + Pad2(t.hours) + ":" + Pad2(t.minutes) + ":" + Pad2(t.seconds)
  {
    ClockLengths(t);
    ClockParts(FormatDateTime(t), FormatDate(t), Pad2(t.hours), Pad2(t.minutes), Pad2(t.seconds));
  }

  /** Every in-range timestamp is printed in the DD-MM-YYYY HH:mm:ss shape and reads back
      to the same fields. */
  lemma DateTimeRoundTrip(t: LocalTime)
    requires InRange(t)
    ensures ParseDateTime(FormatDateTime(t)) == Some(t)
  {
    DateRoundTrip(t);
    Pad2Digits(t.hours);
    Pad2Digits(t.minutes);
    Pad2Digits(t.seconds);
    ParseClockParts(FormatDateTime(t), FormatDate(t), Pad2(t.hours), Pad2(t.minutes), Pad2(t.seconds), t.date);
  }

  /** Two in-range timestamps print the same only if they are the same, so no information
      is lost on the way to the client. */
  lemma FormatDateTimeInjective(a: LocalTime, b: LocalTime)
    requires InRange(a) && InRange(b)
    requires FormatDateTime(a) == FormatDateTime(b)
    ensures a == b
  {
    DateTimeRoundTrip(a);
    DateTimeRoundTrip(b);
  }

  /** A number from 1000 to 9999 has four decimal digits. */
  lemma FourDigits(n: nat)
    requires 1000 <= n <= 9999
    ensures |NatToString(n)| == 4
  {
    var a := n / 10;
    var b := a / 10;
    assert 10 <= b <= 99;
    assert |NatToString(b)| == 2;
    assert |NatToString(a)| == 3;
  }

  /** For years 1000 to 9999 the output is exactly "DD-MM-YYYY" (ten characters) and
      "DD-MM-YYYY HH:mm:ss" (nineteen); other years change only the length of the year part. */
  lemma FourDigitYearLengths(t: LocalTime)
    requires InRange(t) && 1000 <= t.date.year <= 9999
    ensures |FormatDate(t)| == 10
    ensures |FormatDateTime(t)| == 19
  {
    FourDigits(t.date.year);
    assert |IntToString(t.date.year)| == 4;
    Pad2Digits(t.date.day);
    Pad2Digits(t.date.monthIndex + 1);
    ClockLengths(t);
  }
}

=== FILE: option.dfy ===
/** A value that may be missing: a JSON field left out of a request, or a nullable column. */
module Opt {

  datatype Option<+T> = None | Some(value: T)
}

=== FILE: records.dfy ===
/**
 * The rows of the catalogue's tables, the bodies handlers accept, and the responses they
 * send. Ids are the tables' integer keys; every other column the handlers touch is a
 * field here. The timestamps the database fills in (CreatedAt, UpdatedAt) are not.
 */
module Records {
  import opened Opt
  import opened Dates

  /** Ratings, notes, comments and categories come in a movie table and a series table,
      served by twin handlers that differ only in the table and the wording. */
  datatype Kind = MovieKind | SeriesKind {
    function Other(): (k: Kind)
      ensures k != this
    {
      if MovieKind? then SeriesKind else MovieKind
    }
  }

  /** The movie table and its series twin. */
  datatype PerKind<T> = PerKind(movie: T, series: T) {
    function Of(k: Kind): T {
      if k == MovieKind then movie else series
    }

    /** Replaces the table of kind `k`; the twin is left as it is. */
    function With(k: Kind, v: T): (r: PerKind<T>)
      ensures r.Of(k) == v && r.Of(k.Other()) == Of(k.Other())
    {
      if k == MovieKind then PerKind(v, series) else PerKind(movie, v)
    }
  }

  datatype User = User(name: string, email: string, password: string)

  datatype Movie = Movie(title: string, genre: string, releaseDate: LocalTime, description: Option<string>)

  datatype Series = Series(title: string, genre: string, releaseDate: LocalTime, description: Option<string>,
                           seasonsCount: int)

  datatype Category = Category(name: string)

  /** A row of the join table between movies (or series) and their categories. */
  datatype CategoryLink = CategoryLink(ownerId: int, categoryId: int)

  /** A rating, note or comment row; `parentId` is its MovieId or SeriesId. */
  datatype Rating = Rating(userId: int, parentId: int, value: int)

  datatype Note = Note(userId: int, parentId: int, text: string)

  datatype Comment = Comment(userId: int, parentId: int, text: string)

  datatype Share = Share(senderUserId: int, recipientUserId: int, movieId: Option<int>, seriesId: Option<int>)

  /** A scheduled viewing; nothing stops it from naming both a movie and a series. */
  datatype Event = Event(userId: int, movieId: Option<int>, seriesId: Option<int>, eventDate: LocalTime,
                         note: Option<string>)

  /** The body of POST /movies; a missing field is None. */
  datatype MovieRequest = MovieRequest(title: string, genre: string, releaseDate: LocalTime,
                                       description: Option<string>, categoryIds: Option<seq<int>>)

  /** The body of POST /series. */
  datatype SeriesRequest = SeriesRequest(title: string, genre: string, releaseDate: LocalTime,
                                         description: Option<string>, seasonsCount: int,
                                         categoryIds: Option<seq<int>>)

  /** The body of PUT /movies/:movieId; a missing field is None, and so is a missing or
      falsy release date, which the handler turns into undefined. */
  datatype MoviePatch = MoviePatch(title: Option<string>, genre: Option<string>,
                                   releaseDate: Option<LocalTime>, description: Option<string>)

  /** The body of PUT /series/:seriesId; as for movies, a missing or falsy release date
      is None. */
  datatype SeriesPatch = SeriesPatch(title: Option<string>, genre: Option<string>,
                                     releaseDate: Option<LocalTime>, description: Option<string>,
                                     seasonsCount: Option<int>)

  /** A movie as the client receives it, with the release date already formatted. */
  datatype MovieView = MovieView(movieId: int, title: string, genre: string, releaseDate: string,
                                 description: Option<string>)

  datatype SeriesView = SeriesView(seriesId: int, title: string, genre: string, releaseDate: string,
                                   description: Option<string>, seasonsCount: int)

  /** A scheduled viewing as the client receives it: the event date formatted as
      "DD-MM-YYYY HH:mm:ss". */
  datatype EventView = EventView(eventId: int, userId: int, movieId: Option<int>, seriesId: Option<int>,
                                 eventDate: string, note: Option<string>)

  /** A status code with either the JSON body or the `error` string of the response. */
  datatype Response<T> = Ok(status: nat, body: T) | Err(status: nat, message: string)

  const RatingOutOfRange := "O rating deve estar entre 0 e 10."
  const CategoriesMissing := "Uma ou mais categorias fornecidas não existem."
  const UserNotFound := "Utilizador não encontrado"
  /** The comment and login handlers word the missing-user error differently. */
  const UsuarioNotFound := "Usuário não encontrado"
  const SenderNotFound := "Utilizador remetente não encontrado"
  const RecipientNotFound := "Utilizador destinatário não encontrado"
  const MovieNotFound := "Filme não encontrado"
  const SeriesNotFound := "Série não encontrada"
  const MovieUpdateFailed := "Filme não encontrado ou erro ao atualizar"
  const SeriesUpdateFailed := "Série não encontrada ou erro ao atualizar"
  const RatingNotFound := "Classificação não encontrada"
  const NoteUpdateFailed := "Nota não encontrada ou erro ao atualizar"
  const NoteNotFound := "Nota não encontrada"
  const ShareNotFound := "Partilha não encontrada"
  const EventNotFound := "Evento não encontrado"
  const PasswordInvalid := "Senha inválida"

  const UserDeleted := "Utilizador eliminado com sucesso"
  const MovieDeleted := "Filme eliminado com sucesso"
  const SeriesDeleted := "Série eliminada com sucesso"
  const RatingDeleted := "Classificação removida com sucesso"
  const NoteDeleted := "Nota removida com sucesso"
  const CommentDeleted := "Comentário removido com sucesso"
  const ShareDeleted := "Partilha removida com sucesso"
  const EventDeleted := "Evento removido com sucesso"

  /** The 404 message when the movie or series a request names is missing. */
  function ParentNotFound(k: Kind): string {
    if k == MovieKind then MovieNotFound else SeriesNotFound
  }

  /** The 404 message when a comment is missing or belongs to another movie or series. */
  function CommentNotFound(k: Kind): string {
    if k == MovieKind then "Comentário não encontrado para este filme"
    else "Comentário não encontrado para esta série"
  }
}

=== FILE: rules.dfy ===
/**
 * The pure decisions inside the write handlers: the rating range test, JavaScript
 * truthiness of optional request fields, the category count check, the partial-update
 * merge, and the shaping of a movie, a series or a scheduled viewing for the client.
 */
module Rules {
  import opened Opt
  import opened Dates
  import opened Records

  /** The handlers' guard `rating < 0 || rating > 10`. */
  predicate RatingRejected(rating: int) {
    rating < 0 || rating > 10
  }

  /** A string field is truthy when it is present and not empty. */
  predicate TextGiven(s: Option<string>) {
    s.Some? && s.value != ""
  }

  /** A numeric field (an id, a season count) is truthy when it is present and not 0. */
  predicate NumberGiven(x: Option<int>) {
    x.Some? && x.value != 0
  }

  /** `movieId ? parseInt(movieId) : null`: a falsy id, 0 included, is stored as null. */
  function IdOrNull(x: Option<int>): (r: Option<int>)
    ensures r.Some? <==> NumberGiven(x)
    ensures r.Some? ==> r == x
  {
    if NumberGiven(x) then x else None
  }

  /** `description || null`: an empty string is stored as null. */
  function TextOrNull(s: Option<string>): (r: Option<string>)
    ensures r.Some? <==> TextGiven(s)
    ensures r.Some? ==> r == s
  {
    if TextGiven(s) then s else None
  }

  /** A field set to undefined in an update is left alone by the database. */
  function SetIfDefined<T>(current: T, supplied: Option<T>): (r: T)
    ensures supplied.Some? ==> r == supplied.value
    ensures supplied.None? ==> r == current
  {
    if supplied.Some? then supplied.value else current
  }

  // ---------------------------------------------------------------------------------
  // The category check of POST /movies and POST /series
  // ---------------------------------------------------------------------------------

  /** The rows `findMany({ where: { id: { in: requested } } })` returns, one per existing
      category; a repeated id still finds its row once. */
  function FoundIds(existing: set<int>, requested: seq<int>): (r: set<int>)
    ensures forall c :: c in r <==> c in existing && c in requested
  {
    set c | c in requested && c in existing
  }

  /** The source's test: no list, an empty list, or as many rows found as ids sent. */
  predicate CategoriesAccepted(existing: set<int>, categoryIds: Option<seq<int>>) {
    categoryIds.None? || |categoryIds.value| == 0
      || |FoundIds(existing, categoryIds.value)| == |categoryIds.value|
  }

  predicate Distinct(s: seq<int>) {
    forall i, j :: 0 <= i < j < |s| ==> s[i] != s[j]
  }

  /** A list has at least as many entries as distinct values, and exactly as many when no
      value repeats. */
  lemma {:induction false} ElementsCount(s: seq<int>)
    ensures |set x | x in s| <= |s|
    ensures |set x | x in s| == |s| <==> Distinct(s)
  {
    if s != [] {
      var t := s[1..];
      ElementsCount(t);
      assert (set x | x in s) == {s[0]} + (set x | x in t);
      if s[0] in t {
        assert (set x | x in s) == (set x | x in t);
        var k :| 0 <= k < |t| && t[k] == s[0];
        assert s[0] == s[k + 1];
      } else {
        assert Distinct(s) <==> Distinct(t) by {
          if Distinct(t) {
            forall i, j | 0 <= i < j < |s| ensures s[i] != s[j] {
              if i > 0 {
                assert s[i] == t[i - 1] && s[j] == t[j - 1];
              } else {
                assert s[j] == t[j - 1];
              }
            }
          }
          if Distinct(s) {
            forall i, j | 0 <= i < j < |t| ensures t[i] != t[j] {
              assert t[i] == s[i + 1] && t[j] == s[j + 1];
            }
          }
        }
      }
    }
  }

  /** A subset as large as its superset is the superset. */
  lemma SubsetCount(a: set<int>, b: set<int>)
    requires a <= b
    ensures |a| <= |b|
    ensures |a| == |b| ==> a == b
  {
    assert b == a + (b - a);
    assert |b| == |a| + |b - a|;
    if |a| == |b| {
      assert |b - a| == 0;
    }
  }

  /** What the count comparison means: it passes exactly for lists whose ids all exist and
      are pairwise different. A repeated id fails it even when that category exists. */
  lemma CountCheckMeaning(existing: set<int>, ids: seq<int>)
    ensures |FoundIds(existing, ids)| == |ids|
            <==> Distinct(ids) && forall i :: 0 <= i < |ids| ==> ids[i] in existing
  {
    var named := set x | x in ids;
    var found := FoundIds(existing, ids);
    ElementsCount(ids);
    SubsetCount(found, named);
    if forall i :: 0 <= i < |ids| ==> ids[i] in existing {
      assert found == named;
    } else {
      var i :| 0 <= i < |ids| && ids[i] !in existing;
      assert ids[i] in named && ids[i] !in found;
    }
  }

  /** The relation rows `categoryIds.map(...)` creates for a new movie or series. */
  function LinksFor(ownerId: int, categoryIds: Option<seq<int>>): (r: set<CategoryLink>)
    ensures forall l :: l in r <==> categoryIds.Some? && l.ownerId == ownerId && l.categoryId in categoryIds.value
  {
    if categoryIds.None? then {} else set c | c in categoryIds.value :: CategoryLink(ownerId, c)
  }

  /** Distinct ids give as many relation rows as ids. */
  lemma {:induction false} LinksCount(ownerId: int, ids: seq<int>)
    requires Distinct(ids)
    ensures |LinksFor(ownerId, Some(ids))| == |ids|
  {
    if ids != [] {
      var rest := ids[1..];
      assert Distinct(rest) by {
        forall i, j | 0 <= i < j < |rest| ensures rest[i] != rest[j] {
          assert rest[i] == ids[i + 1] && rest[j] == ids[j + 1];
        }
      }
      LinksCount(ownerId, rest);
      var head := CategoryLink(ownerId, ids[0]);
      assert ids[0] !in rest by {
        forall k | 0 <= k < |rest| ensures rest[k] != ids[0] {
          assert rest[k] == ids[k + 1];
        }
      }
      assert LinksFor(ownerId, Some(ids)) == LinksFor(ownerId, Some(rest)) + {head};
      assert head !in LinksFor(ownerId, Some(rest));
    }
  }

  /** Once the category check has passed, every requested category gets exactly one relation row,
      and each row names an existing category. */
  lemma LinksOnePerCategory(existing: set<int>, ownerId: int, ids: seq<int>)
    requires CategoriesAccepted(existing, Some(ids))
    ensures |LinksFor(ownerId, Some(ids))| == |ids|
    ensures forall l :: l in LinksFor(ownerId, Some(ids)) ==> l.categoryId in existing
  {
    if |ids| != 0 {
      CountCheckMeaning(existing, ids);
      LinksCount(ownerId, ids);
      forall l | l in LinksFor(ownerId, Some(ids)) ensures l.categoryId in existing {
        var k :| 0 <= k < |ids| && ids[k] == l.categoryId;
      }
    }
  }

  // ---------------------------------------------------------------------------------
  // Creation and partial update of movies and series
  // ---------------------------------------------------------------------------------

  /** The row POST /movies writes; an empty description is stored as null. */
  function NewMovie(req: MovieRequest): (m: Movie)
    ensures m.title == req.title && m.genre == req.genre && m.releaseDate == req.releaseDate
    ensures m.description.Some? <==> TextGiven(req.description)
    ensures m.description.Some? ==> m.description == req.description
  {
    Movie(req.title, req.genre, req.releaseDate, TextOrNull(req.description))
  }

  function NewSeries(req: SeriesRequest): (s: Series)
    ensures s.title == req.title && s.genre == req.genre && s.releaseDate == req.releaseDate
    ensures s.description.Some? <==> TextGiven(req.description)
    ensures s.description.Some? ==> s.description == req.description
    ensures s.seasonsCount == req.seasonsCount
  {
    Series(req.title, req.genre, req.releaseDate, TextOrNull(req.description), req.seasonsCount)
  }

  /** The data of PUT /movies/:movieId: `title || undefined` and so on. A field changes only
      when the request supplies a truthy value, and then takes that value. */
  function PatchMovie(m: Movie, p: MoviePatch): (r: Movie)
    ensures TextGiven(p.title) ==> r.title == p.title.value
    ensures r.title != m.title ==> TextGiven(p.title)
    ensures TextGiven(p.genre) ==> r.genre == p.genre.value
    ensures r.genre != m.genre ==> TextGiven(p.genre)
    ensures p.releaseDate.Some? ==> r.releaseDate == p.releaseDate.value
    ensures r.releaseDate != m.releaseDate ==> p.releaseDate.Some?
    ensures TextGiven(p.description) ==> r.description == p.description
    ensures r.description != m.description ==> TextGiven(p.description)
  {
    Movie(if TextGiven(p.title) then p.title.value else m.title,
          if TextGiven(p.genre) then p.genre.value else m.genre,
          // `releaseDate ? new Date(releaseDate) : undefined`: a falsy date arrives as None
          SetIfDefined(m.releaseDate, p.releaseDate),
          if TextGiven(p.description) then p.description else m.description)
  }

  /** The data of PUT /series/:seriesId; as for movies, and a season count of 0 is falsy. */
  function PatchSeries(s: Series, p: SeriesPatch): (r: Series)
    ensures TextGiven(p.title) ==> r.title == p.title.value
    ensures r.title != s.title ==> TextGiven(p.title)
    ensures TextGiven(p.genre) ==> r.genre == p.genre.value
    ensures r.genre != s.genre ==> TextGiven(p.genre)
    ensures p.releaseDate.Some? ==> r.releaseDate == p.releaseDate.value
    ensures r.releaseDate != s.releaseDate ==> p.releaseDate.Some?
    ensures TextGiven(p.description) ==> r.description == p.description
    ensures r.description != s.description ==> TextGiven(p.description)
    ensures NumberGiven(p.seasonsCount) ==> r.seasonsCount == p.seasonsCount.value
    ensures r.seasonsCount != s.seasonsCount ==> NumberGiven(p.seasonsCount)
  {
    Series(if TextGiven(p.title) then p.title.value else s.title,
           if TextGiven(p.genre) then p.genre.value else s.genre,
           // as for movies, a falsy date arrives as None
           SetIfDefined(s.releaseDate, p.releaseDate),
           if TextGiven(p.description) then p.description else s.description,
           if NumberGiven(p.seasonsCount) then p.seasonsCount.value else s.seasonsCount)
  }

  /** Sending the same update twice changes nothing the second time. */
  lemma PatchMovieIdempotent(m: Movie, p: MoviePatch)
    ensures PatchMovie(PatchMovie(m, p), p) == PatchMovie(m, p)
  {
  }

  lemma PatchSeriesIdempotent(s: Series, p: SeriesPatch)
    ensures PatchSeries(PatchSeries(s, p), p) == PatchSeries(s, p)
  {
  }

  /** An update whose fields are all falsy leaves the row as it was: an empty title, an
      empty description or zero seasons cannot be written by PUT. */
  lemma FalsyPatchKeepsSeries(s: Series, p: SeriesPatch)
    requires !TextGiven(p.title) && !TextGiven(p.genre) && p.releaseDate.None?
    requires !TextGiven(p.description) && !NumberGiven(p.seasonsCount)
    ensures PatchSeries(s, p) == s
  {
  }

  // ---------------------------------------------------------------------------------
  // Response shaping
  // ---------------------------------------------------------------------------------

  /** A movie as returned to the client: every column, the release date as "DD-MM-YYYY". */
  function ViewMovie(id: int, m: Movie): (v: MovieView)
    ensures v.movieId == id && v.title == m.title && v.genre == m.genre && v.description == m.description
  {
    MovieView(id, m.title, m.genre, FormatDate(m.releaseDate), m.description)
  }

  /** A series as returned to the client, likewise. */
  function ViewSeries(id: int, s: Series): (v: SeriesView)
    ensures v.seriesId == id && v.title == s.title && v.genre == s.genre && v.description == s.description
    ensures v.seasonsCount == s.seasonsCount
  {
    SeriesView(id, s.title, s.genre, FormatDate(s.releaseDate), s.description, s.seasonsCount)
  }

  /** A scheduled viewing as POST /scheduling answers it: every column, the event date as
      "DD-MM-YYYY HH:mm:ss". */
  function ViewEvent(id: int, e: Event): (v: EventView)
    ensures v.eventId == id && v.userId == e.userId && v.movieId == e.movieId && v.seriesId == e.seriesId
    ensures v.note == e.note
  {
    EventView(id, e.userId, e.movieId, e.seriesId, FormatDateTime(e.eventDate), e.note)
  }

  /** The client can read the stored calendar day back from a movie's release date string. */
  lemma ViewMovieKeepsDate(id: int, m: Movie)
    requires DateInRange(m.releaseDate.date)
    ensures ParseDate(ViewMovie(id, m).releaseDate) == Some(m.releaseDate.date)
  {
    DateRoundTrip(m.releaseDate);
  }

  /** Likewise for a series. */
  lemma ViewSeriesKeepsDate(id: int, s: Series)
    requires DateInRange(s.releaseDate.date)
    ensures ParseDate(ViewSeries(id, s).releaseDate) == Some(s.releaseDate.date)
  {
    DateRoundTrip(s.releaseDate);
  }

  /** The client can read every field of the stored event date back from the response. */
  lemma ViewEventKeepsDate(id: int, e: Event)
    requires InRange(e.eventDate)
    ensures ParseDateTime(ViewEvent(id, e).eventDate) == Some(e.eventDate)
  {
    DateTimeRoundTrip(e.eventDate);
  }
}

=== FILE: store.dfy ===
/**
 * The write handlers of the service (and the login and one read handler) over an
 * in-memory copy of its database. Each handler is a method that runs the source's
 * checks in the source's order, returns at the first one that fails, and otherwise
 * performs its one write. Its contract says which response comes back for which
 * state and request, which table changes and how; the field-level `modifies` clause
 * says that no other table changes.
 */
module Api {
  import opened Opt
  import opened Dates
  import opened Records
  import opened Rules

  /** Every key is an id the database has handed out: positive and below the next one. */
  predicate IdsBelow<V>(table: map<int, V>, next: int) {
    forall k :: k in table ==> 1 <= k < next
  }

  /** The unique index on the users' email column. */
  predicate EmailsUnique(users: map<int, User>) {
    forall a, b :: a in users && b in users && users[a].email == users[b].email ==> a == b
  }

  /** Every relation row names a movie or series by an id already handed out. */
  predicate LinksBelow(links: set<CategoryLink>, next: int) {
    forall l :: l in links ==> 1 <= l.ownerId < next
  }

  /** Every stored rating passed the handlers' range check. */
  predicate RatingsInRange(table: map<int, Rating>) {
    forall id :: id in table ==> !RatingRejected(table[id].value)
  }

  /** The database: one map from id to row per table. */
  class Store {
    var users: map<int, User>
    var movies: map<int, Movie>
    var series: map<int, Series>
    var categories: PerKind<map<int, Category>>
    var categoryLinks: PerKind<set<CategoryLink>>
    var ratings: PerKind<map<int, Rating>>
    var notes: PerKind<map<int, Note>>
    var comments: PerKind<map<int, Comment>>
    var shares: map<int, Share>
    var events: map<int, Event>
    /** The id the next created row receives. */
    var nextId: int

    /** Ids are never reused (every key and every relation row's owner is below nextId), no two users share an email, and every rating is from 0 to 10. */
    ghost predicate Valid()
      reads this
    {
      && 1 <= nextId
      && IdsBelow(users, nextId) && IdsBelow(movies, nextId) && IdsBelow(series, nextId)
      && IdsBelow(categories.movie, nextId) && IdsBelow(categories.series, nextId)
      && IdsBelow(ratings.movie, nextId) && IdsBelow(ratings.series, nextId)
      && IdsBelow(notes.movie, nextId) && IdsBelow(notes.series, nextId)
      && IdsBelow(comments.movie, nextId) && IdsBelow(comments.series, nextId)
      && IdsBelow(shares, nextId) && IdsBelow(events, nextId)
      && LinksBelow(categoryLinks.movie, nextId) && LinksBelow(categoryLinks.series, nextId)
      && EmailsUnique(users)
      && RatingsInRange(ratings.movie) && RatingsInRange(ratings.series)
    }

    /** The movie or series a nested route names exists. */
    predicate HasParent(kind: Kind, id: int)
      reads this
    {
      if kind == MovieKind then id in movies else id in series
    }

    /** The comment exists and belongs to the movie or series in the path. */
    predicate OwnsComment(kind: Kind, parentId: int, commentId: int)
      reads this
    {
      commentId in comments.Of(kind) && comments.Of(kind)[commentId].parentId == parentId
    }

    constructor ()
      ensures Valid()
      ensures users == map[] && movies == map[] && series == map[]
      ensures categories == PerKind(map[], map[]) && categoryLinks == PerKind({}, {})
      ensures ratings == PerKind(map[], map[]) && notes == PerKind(map[], map[])
      ensures comments == PerKind(map[], map[]) && shares == map[] && events == map[]
    {
      users, movies, series := map[], map[], map[];
      categories, categoryLinks := PerKind(map[], map[]), PerKind({}, {});
      ratings, notes, comments := PerKind(map[], map[]), PerKind(map[], map[]), PerKind(map[], map[]);
      shares, events := map[], map[];
      nextId := 1;
    }

    // -------------------------------------------------------------------------------
    // Users
    // -------------------------------------------------------------------------------

    /** DELETE /users/:userId. Rows that refer to the user are left as they are. */
    method DeleteUser(userId: int) returns (r: Response<string>)
      requires Valid()
      modifies this`users
      ensures Valid()
      ensures userId !in old(users) ==> r == Err(404, UserNotFound) && users == old(users)
      ensures userId in old(users) ==> r == Ok(200, UserDeleted) && users == old(users) - {userId}
    {
      if userId !in users {
        return Err(404, UserNotFound);
      }
      users := users - {userId};
      return Ok(200, UserDeleted);
    }

    // -------------------------------------------------------------------------------
    // Movies and series
    // -------------------------------------------------------------------------------

    /** GET /movies/:movieId: the row with its release date formatted, or 404. */
    method GetMovie(movieId: int) returns (r: Response<MovieView>)
      ensures movieId !in movies ==> r == Err(404, MovieNotFound)
      ensures movieId in movies ==> r == Ok(200, ViewMovie(movieId, movies[movieId]))
    {
      if movieId !in movies {
        return Err(404, MovieNotFound);
      }
      return Ok(200, ViewMovie(movieId, movies[movieId]));
    }

    /** POST /movies. A non-empty category list must name as many existing categories as it
        has entries, or nothing is written and the answer is 400. Otherwise the movie gets a
        fresh id and one relation row per requested category. */
    method CreateMovie(req: MovieRequest) returns (r: Response<(int, Movie)>)
      requires Valid()
      modifies this`movies, this`categoryLinks, this`nextId
      ensures Valid()
      ensures !CategoriesAccepted(categories.movie.Keys, req.categoryIds) ==>
                && r == Err(400, CategoriesMissing)
                && movies == old(movies) && categoryLinks == old(categoryLinks) && nextId == old(nextId)
      ensures CategoriesAccepted(categories.movie.Keys, req.categoryIds) ==>
                && r.Ok? && r.status == 201 && r.body.1 == NewMovie(req)
                && r.body.0 == old(nextId) && nextId == old(nextId) + 1
                && 1 <= r.body.0 && r.body.0 !in old(movies)
                && movies == old(movies)[r.body.0 := r.body.1]
                && LinksFor(r.body.0, req.categoryIds) !! old(categoryLinks.movie)
                && categoryLinks == old(categoryLinks).With(MovieKind,
                     old(categoryLinks.movie) + LinksFor(r.body.0, req.categoryIds))
    {
      if req.categoryIds.Some? && |req.categoryIds.value| > 0 {
        var found := FoundIds(categories.movie.Keys, req.categoryIds.value);
        if |found| != |req.categoryIds.value| {
          return Err(400, CategoriesMissing);
        }
      }
      var id := nextId;
      var row := NewMovie(req);
      movies := movies[id := row];
      categoryLinks := categoryLinks.With(MovieKind, categoryLinks.movie + LinksFor(id, req.categoryIds));
      nextId := nextId + 1;
      return Ok(201, (id, row));
    }

    /** PUT /movies/:movieId: a partial update in which only truthy fields overwrite. A
        missing movie is a 404 and writes nothing. */
    method UpdateMovie(movieId: int, patch: MoviePatch) returns (r: Response<MovieView>)
      requires Valid()
      modifies this`movies
      ensures Valid()
      ensures movieId !in old(movies) ==> r == Err(404, MovieUpdateFailed) && movies == old(movies)
      ensures movieId in old(movies) ==>
                var updated := PatchMovie(old(movies)[movieId], patch);
                r == Ok(200, ViewMovie(movieId, updated)) && movies == old(movies)[movieId := updated]
    {
      if movieId !in movies {
        return Err(404, MovieUpdateFailed);
      }
      var updated := PatchMovie(movies[movieId], patch);
      ReplaceMovie(movieId, updated);
      return Ok(200, ViewMovie(movieId, updated));
    }

    /** The one write of PUT /movies/:movieId: the stored row becomes `row`. */
    method ReplaceMovie(movieId: int, row: Movie)
      requires Valid() && movieId in movies
      modifies this`movies
      ensures Valid()
      ensures movies == old(movies)[movieId := row]
    {
      movies := movies[movieId := row];
    }

    /** DELETE /movies/:movieId. Its ratings, notes, comments and category rows stay. */
    method DeleteMovie(movieId: int) returns (r: Response<string>)
      requires Valid()
      modifies this`movies
      ensures Valid()
      ensures movieId !in old(movies) ==> r == Err(404, MovieNotFound) && movies == old(movies)
      ensures movieId in old(movies) ==> r == Ok(200, MovieDeleted) && movies == old(movies) - {movieId}
    {
      if movieId !in movies {
        return Err(404, MovieNotFound);
      }
      movies := movies - {movieId};
      return Ok(200, MovieDeleted);
    }

    /** POST /series, with the same category check as POST /movies against the series
        categories. */
    method CreateSeries(req: SeriesRequest) returns (r: Response<(int, Series)>)
      requires Valid()
      modifies this`series, this`categoryLinks, this`nextId
      ensures Valid()
      ensures !CategoriesAccepted(categories.series.Keys, req.categoryIds) ==>
                && r == Err(400, CategoriesMissing)
                && series == old(series) && categoryLinks == old(categoryLinks) && nextId == old(nextId)
      ensures CategoriesAccepted(categories.series.Keys, req.categoryIds) ==>
                && r.Ok? && r.status == 201 && r.body.1 == NewSeries(req)
                && r.body.0 == old(nextId) && nextId == old(nextId) + 1
                && 1 <= r.body.0 && r.body.0 !in old(series)
                && series == old(series)[r.body.0 := r.body.1]
                && LinksFor(r.body.0, req.categoryIds) !! old(categoryLinks.series)
                && categoryLinks == old(categoryLinks).With(SeriesKind,
                     old(categoryLinks.series) + LinksFor(r.body.0, req.categoryIds))
    {
      if req.categoryIds.Some? && |req.categoryIds.value| > 0 {
        var found := FoundIds(categories.series.Keys, req.categoryIds.value);
        if |found| != |req.categoryIds.value| {
          return Err(400, CategoriesMissing);
        }
      }
      var id := nextId;
      var row := NewSeries(req);
      series := series[id := row];
      categoryLinks := categoryLinks.With(SeriesKind, categoryLinks.series + LinksFor(id, req.categoryIds));
      nextId := nextId + 1;
      return Ok(201, (id, row));
    }

    /** PUT /series/:seriesId: as for movies; a season count of 0 is not written. */
    method UpdateSeries(seriesId: int, patch: SeriesPatch) returns (r: Response<SeriesView>)
      requires Valid()
      modifies this`series
      ensures Valid()
      ensures seriesId !in old(series) ==> r == Err(404, SeriesUpdateFailed) && series == old(series)
      ensures seriesId in old(series) ==>
                var updated := PatchSeries(old(series)[seriesId], patch);
                r == Ok(200, ViewSeries(seriesId, updated)) && series == old(series)[seriesId := updated]
    {
      if seriesId !in series {
        return Err(404, SeriesUpdateFailed);
      }
      var updated := PatchSeries(series[seriesId], patch);
      ReplaceSeries(seriesId, updated);
      return Ok(200, ViewSeries(seriesId, updated));
    }

    /** The one write of PUT /series/:seriesId: the stored row becomes `row`. */
    method ReplaceSeries(seriesId: int, row: Series)
      requires Valid() && seriesId in series
      modifies this`series
      ensures Valid()
      ensures series == old(series)[seriesId := row]
    {
      series := series[seriesId := row];
    }

    /** DELETE /series/:seriesId. */
    method DeleteSeries(seriesId: int) returns (r: Response<string>)
      requires Valid()
      modifies this`series
      ensures Valid()
      ensures seriesId !in old(series) ==> r == Err(404, SeriesNotFound) && series == old(series)
      ensures seriesId in old(series) ==> r == Ok(200, SeriesDeleted) && series == old(series) - {seriesId}
    {
      if seriesId !in series {
        return Err(404, SeriesNotFound);
      }
      series := series - {seriesId};
      return Ok(200, SeriesDeleted);
    }

    // -------------------------------------------------------------------------------
    // Ratings
    // -------------------------------------------------------------------------------

    /** POST /movies/:movieId/rating (and /series/:seriesId/rating). The range is checked
        before anything is read, so an out-of-range rating is a 400 whatever the tables hold;
        then a missing user, then a missing movie or series, is a 404. Only when all three
        pass is a row written, under a fresh id. */
    method CreateRating(kind: Kind, parentId: int, userId: int, rating: int) returns (r: Response<(int, Rating)>)
      requires Valid()
      modifies this`ratings, this`nextId
      ensures Valid()
      ensures RatingRejected(rating) ==> r == Err(400, RatingOutOfRange)
      ensures !RatingRejected(rating) && userId !in users ==> r == Err(404, UserNotFound)
      ensures !RatingRejected(rating) && userId in users && !HasParent(kind, parentId) ==>
                r == Err(404, ParentNotFound(kind))
      ensures r.Err? ==> ratings == old(ratings) && nextId == old(nextId)
      ensures !RatingRejected(rating) && userId in users && HasParent(kind, parentId) ==>
                && r.Ok? && r.status == 201 && r.body.1 == Rating(userId, parentId, rating)
                && r.body.0 == old(nextId) && nextId == old(nextId) + 1
                && 1 <= r.body.0 && r.body.0 !in old(ratings.Of(kind))
                && ratings == old(ratings).With(kind, old(ratings.Of(kind))[r.body.0 := r.body.1])
    {
      if RatingRejected(rating) {
        return Err(400, RatingOutOfRange);
      }
      var userFound := userId in users;
      var parentFound := HasParent(kind, parentId);
      if !userFound {
        return Err(404, UserNotFound);
      }
      if !parentFound {
        return Err(404, ParentNotFound(kind));
      }
      var id := nextId;
      var row := Rating(userId, parentId, rating);
      ratings := ratings.With(kind, ratings.Of(kind)[id := row]);
      nextId := nextId + 1;
      return Ok(201, (id, row));
    }

    /** PUT /movies/:movieId/rating/:ratingId. The same range check comes first; the rating is
        then looked up by id alone: the movie or series in the path is not compared with it. */
    method UpdateRating(kind: Kind, parentId: int, ratingId: int, rating: int) returns (r: Response<(int, Rating)>)
      requires Valid()
      modifies this`ratings
      ensures Valid()
      ensures RatingRejected(rating) ==> r == Err(400, RatingOutOfRange) && ratings == old(ratings)
      ensures !RatingRejected(rating) && ratingId !in old(ratings.Of(kind)) ==>
                r == Err(404, RatingNotFound) && ratings == old(ratings)
      ensures !RatingRejected(rating) && ratingId in old(ratings.Of(kind)) ==>
                var updated := old(ratings.Of(kind))[ratingId].(value := rating);
                && r == Ok(200, (ratingId, updated))
                && ratings == old(ratings).With(kind, old(ratings.Of(kind))[ratingId := updated])
    {
      if RatingRejected(rating) {
        return Err(400, RatingOutOfRange);
      }
      if ratingId !in ratings.Of(kind) {
        return Err(404, RatingNotFound);
      }
      var updated := ratings.Of(kind)[ratingId].(value := rating);
      ratings := ratings.With(kind, ratings.Of(kind)[ratingId := updated]);
      return Ok(200, (ratingId, updated));
    }

    /** DELETE /movies/:movieId/rating/:ratingId: by rating id alone, like the update. */
    method DeleteRating(kind: Kind, parentId: int, ratingId: int) returns (r: Response<string>)
      requires Valid()
      modifies this`ratings
      ensures Valid()
      ensures ratingId !in old(ratings.Of(kind)) ==> r == Err(404, RatingNotFound) && ratings == old(ratings)
      ensures ratingId in old(ratings.Of(kind)) ==>
                r == Ok(200, RatingDeleted) && ratings == old(ratings).With(kind, old(ratings.Of(kind)) - {ratingId})
    {
      if ratingId !in ratings.Of(kind) {
        return Err(404, RatingNotFound);
      }
      ratings := ratings.With(kind, ratings.Of(kind) - {ratingId});
      return Ok(200, RatingDeleted);
    }

    // -------------------------------------------------------------------------------
    // Scheduling
    // -------------------------------------------------------------------------------

    /** POST /scheduling. The user is checked first, then the movie if a truthy movie id was
        sent, then the series if a truthy series id was sent; the first miss is the 404. A
        falsy id (0 included) is neither checked nor stored. The answer shows the event date
        formatted. */
    method CreateEvent(userId: int, movieId: Option<int>, seriesId: Option<int>, eventDate: LocalTime,
                       note: Option<string>) returns (r: Response<EventView>)
      requires Valid()
      modifies this`events, this`nextId
      ensures Valid()
      ensures userId !in users ==> r == Err(404, UserNotFound)
      ensures userId in users && NumberGiven(movieId) && movieId.value !in movies ==> r == Err(404, MovieNotFound)
      ensures (userId in users && (NumberGiven(movieId) ==> movieId.value in movies)
               && NumberGiven(seriesId) && seriesId.value !in series) ==> r == Err(404, SeriesNotFound)
      ensures r.Err? ==> events == old(events) && nextId == old(nextId)
      ensures && userId in users && (NumberGiven(movieId) ==> movieId.value in movies)
              && (NumberGiven(seriesId) ==> seriesId.value in series) ==>
                var row := Event(userId, IdOrNull(movieId), IdOrNull(seriesId), eventDate, TextOrNull(note));
                && r == Ok(201, ViewEvent(old(nextId), row))
                && nextId == old(nextId) + 1 && old(nextId) !in old(events)
                && events == old(events)[old(nextId) := row]
    {
      if userId !in users {
        return Err(404, UserNotFound);
      }
      if NumberGiven(movieId) && movieId.value !in movies {
        return Err(404, MovieNotFound);
      }
      if NumberGiven(seriesId) && seriesId.value !in series {
        return Err(404, SeriesNotFound);
      }
      var row := Event(userId, IdOrNull(movieId), IdOrNull(seriesId), eventDate, TextOrNull(note));
      var id := InsertEvent(row);
      return Ok(201, ViewEvent(id, row));
    }

    /** The one write of POST /scheduling: the row under the next id, which then advances. */
    method InsertEvent(row: Event) returns (id: int)
      requires Valid()
      modifies this`events, this`nextId
      ensures Valid()
      ensures id == old(nextId) && nextId == old(nextId) + 1
      ensures id !in old(events) && events == old(events)[id := row]
    {
      id := nextId;
      events := events[id := row];
      nextId := nextId + 1;
    }

    /** DELETE /scheduling/:eventId. */
    method DeleteEvent(eventId: int) returns (r: Response<string>)
      requires Valid()
      modifies this`events
      ensures Valid()
      ensures eventId !in old(events) ==> r == Err(404, EventNotFound) && events == old(events)
      ensures eventId in old(events) ==> r == Ok(200, EventDeleted) && events == old(events) - {eventId}
    {
      if eventId !in events {
        return Err(404, EventNotFound);
      }
      events := events - {eventId};
      return Ok(200, EventDeleted);
    }

    // -------------------------------------------------------------------------------
    // Shares
    // -------------------------------------------------------------------------------

    /** POST /shares. Sender, then recipient, then the movie if a truthy id was sent, then the
        series likewise; the first miss decides the 404 and its message. */
    method CreateShare(senderUserId: int, recipientUserId: int, movieId: Option<int>, seriesId: Option<int>)
      returns (r: Response<(int, Share)>)
      requires Valid()
      modifies this`shares, this`nextId
      ensures Valid()
      ensures senderUserId !in users ==> r == Err(404, SenderNotFound)
      ensures senderUserId in users && recipientUserId !in users ==> r == Err(404, RecipientNotFound)
      ensures (senderUserId in users && recipientUserId in users
               && NumberGiven(movieId) && movieId.value !in movies) ==> r == Err(404, MovieNotFound)
      ensures (senderUserId in users && recipientUserId in users && (NumberGiven(movieId) ==> movieId.value in movies)
               && NumberGiven(seriesId) && seriesId.value !in series) ==> r == Err(404, SeriesNotFound)
      ensures r.Err? ==> shares == old(shares) && nextId == old(nextId)
      ensures && senderUserId in users && recipientUserId in users
              && (NumberGiven(movieId) ==> movieId.value in movies)
              && (NumberGiven(seriesId) ==> seriesId.value in series) ==>
                && r.Ok? && r.status == 201
                && r.body.1 == Share(senderUserId, recipientUserId, IdOrNull(movieId), IdOrNull(seriesId))
                && r.body.0 == old(nextId) && nextId == old(nextId) + 1
                && 1 <= r.body.0 && r.body.0 !in old(shares)
                && shares == old(shares)[r.body.0 := r.body.1]
    {
      if senderUserId !in users {
        return Err(404, SenderNotFound);
      }
      if recipientUserId !in users {
        return Err(404, RecipientNotFound);
      }
      if NumberGiven(movieId) && movieId.value !in movies {
        return Err(404, MovieNotFound);
      }
      if NumberGiven(seriesId) && seriesId.value !in series {
        return Err(404, SeriesNotFound);
      }
      var id := nextId;
      var row := Share(senderUserId, recipientUserId, IdOrNull(movieId), IdOrNull(seriesId));
      shares := shares[id := row];
      nextId := nextId + 1;
      return Ok(201, (id, row));
    }

    /** DELETE /shares/:shareId. */
    method DeleteShare(shareId: int) returns (r: Response<string>)
      requires Valid()
      modifies this`shares
      ensures Valid()
      ensures shareId !in old(shares) ==> r == Err(404, ShareNotFound) && shares == old(shares)
      ensures shareId in old(shares) ==> r == Ok(200, ShareDeleted) && shares == old(shares) - {shareId}
    {
      if shareId !in shares {
        return Err(404, ShareNotFound);
      }
      shares := shares - {shareId};
      return Ok(200, ShareDeleted);
    }

    // -------------------------------------------------------------------------------
    // Notes
    // -------------------------------------------------------------------------------

    /** POST /movies/:movieId/notes (and the series twin): user, then movie or series. */
    method CreateNote(kind: Kind, parentId: int, userId: int, text: string) returns (r: Response<(int, Note)>)
      requires Valid()
      modifies this`notes, this`nextId
      ensures Valid()
      ensures userId !in users ==> r == Err(404, UserNotFound)
      ensures userId in users && !HasParent(kind, parentId) ==> r == Err(404, ParentNotFound(kind))
      ensures r.Err? ==> notes == old(notes) && nextId == old(nextId)
      ensures userId in users && HasParent(kind, parentId) ==>
                && r.Ok? && r.status == 201 && r.body.1 == Note(userId, parentId, text)
                && r.body.0 == old(nextId) && nextId == old(nextId) + 1
                && 1 <= r.body.0 && r.body.0 !in old(notes.Of(kind))
                && notes == old(notes).With(kind, old(notes.Of(kind))[r.body.0 := r.body.1])
    {
      var userFound := userId in users;
      var parentFound := HasParent(kind, parentId);
      if !userFound {
        return Err(404, UserNotFound);
      }
      if !parentFound {
        return Err(404, ParentNotFound(kind));
      }
      var id := nextId;
      var row := Note(userId, parentId, text);
      notes := notes.With(kind, notes.Of(kind)[id := row]);
      nextId := nextId + 1;
      return Ok(201, (id, row));
    }

    /** PUT /movies/:movieId/notes/:noteId: by note id alone; the path's movie or series is not
        compared with the note's. A missing text leaves the stored one. */
    method UpdateNote(kind: Kind, parentId: int, noteId: int, text: Option<string>) returns (r: Response<(int, Note)>)
      requires Valid()
      modifies this`notes
      ensures Valid()
      ensures noteId !in old(notes.Of(kind)) ==> r == Err(404, NoteUpdateFailed) && notes == old(notes)
      ensures noteId in old(notes.Of(kind)) ==>
                var before := old(notes.Of(kind))[noteId];
                var updated := before.(text := SetIfDefined(before.text, text));
                r == Ok(200, (noteId, updated)) && notes == old(notes).With(kind, old(notes.Of(kind))[noteId := updated])
    {
      if noteId !in notes.Of(kind) {
        return Err(404, NoteUpdateFailed);
      }
      var before := notes.Of(kind)[noteId];
      var updated := before.(text := SetIfDefined(before.text, text));
      notes := notes.With(kind, notes.Of(kind)[noteId := updated]);
      return Ok(200, (noteId, updated));
    }

    /** DELETE /movies/:movieId/notes/:noteId: by note id alone. */
    method DeleteNote(kind: Kind, parentId: int, noteId: int) returns (r: Response<string>)
      requires Valid()
      modifies this`notes
      ensures Valid()
      ensures noteId !in old(notes.Of(kind)) ==> r == Err(404, NoteNotFound) && notes == old(notes)
      ensures noteId in old(notes.Of(kind)) ==>
                r == Ok(200, NoteDeleted) && notes == old(notes).With(kind, old(notes.Of(kind)) - {noteId})
    {
      if noteId !in notes.Of(kind) {
        return Err(404, NoteNotFound);
      }
      notes := notes.With(kind, notes.Of(kind) - {noteId});
      return Ok(200, NoteDeleted);
    }

    // -------------------------------------------------------------------------------
    // Comments
    // -------------------------------------------------------------------------------

    /** POST /movies/:movieId/comments (and the series twin): user, then movie or series. */
    method CreateComment(kind: Kind, parentId: int, userId: int, text: string) returns (r: Response<(int, Comment)>)
      requires Valid()
      modifies this`comments, this`nextId
      ensures Valid()
      ensures userId !in users ==> r == Err(404, UsuarioNotFound)
      ensures userId in users && !HasParent(kind, parentId) ==> r == Err(404, ParentNotFound(kind))
      ensures r.Err? ==> comments == old(comments) && nextId == old(nextId)
      ensures userId in users && HasParent(kind, parentId) ==>
                && r.Ok? && r.status == 201 && r.body.1 == Comment(userId, parentId, text)
                && r.body.0 == old(nextId) && nextId == old(nextId) + 1
                && 1 <= r.body.0 && r.body.0 !in old(comments.Of(kind))
                && comments == old(comments).With(kind, old(comments.Of(kind))[r.body.0 := r.body.1])
    {
      var userFound := userId in users;
      var parentFound := HasParent(kind, parentId);
      if !userFound {
        return Err(404, UsuarioNotFound);
      }
      if !parentFound {
        return Err(404, ParentNotFound(kind));
      }
      var id := nextId;
      var row := Comment(userId, parentId, text);
      comments := comments.With(kind, comments.Of(kind)[id := row]);
      nextId := nextId + 1;
      return Ok(201, (id, row));
    }

    /** PUT /movies/:movieId/comments/:commentId. Unlike ratings and notes, the comment must
        belong to the movie or series in the path: otherwise 404 and nothing changes. When it
        does, only that comment's text changes (a missing text leaves it). */
    method UpdateComment(kind: Kind, parentId: int, commentId: int, text: Option<string>)
      returns (r: Response<(int, Comment)>)
      requires Valid()
      modifies this`comments
      ensures Valid()
      ensures !old(OwnsComment(kind, parentId, commentId)) ==>
                r == Err(404, CommentNotFound(kind)) && comments == old(comments)
      ensures old(OwnsComment(kind, parentId, commentId)) ==>
                var before := old(comments.Of(kind))[commentId];
                var updated := before.(text := SetIfDefined(before.text, text));
                && r == Ok(200, (commentId, updated))
                && comments == old(comments).With(kind, old(comments.Of(kind))[commentId := updated])
    {
      if !OwnsComment(kind, parentId, commentId) {
        return Err(404, CommentNotFound(kind));
      }
      var before := comments.Of(kind)[commentId];
      var updated := before.(text := SetIfDefined(before.text, text));
      comments := comments.With(kind, comments.Of(kind)[commentId := updated]);
      return Ok(200, (commentId, updated));
    }

    /** DELETE /movies/:movieId/comments/:commentId: the same ownership check, then only that
        comment is removed. */
    method DeleteComment(kind: Kind, parentId: int, commentId: int) returns (r: Response<string>)
      requires Valid()
      modifies this`comments
      ensures Valid()
      ensures !old(OwnsComment(kind, parentId, commentId)) ==>
                r == Err(404, CommentNotFound(kind)) && comments == old(comments)
      ensures old(OwnsComment(kind, parentId, commentId)) ==>
                && r == Ok(200, CommentDeleted)
                && comments == old(comments).With(kind, old(comments.Of(kind)) - {commentId})
    {
      if !OwnsComment(kind, parentId, commentId) {
        return Err(404, CommentNotFound(kind));
      }
      comments := comments.With(kind, comments.Of(kind) - {commentId});
      return Ok(200, CommentDeleted);
    }

    // -------------------------------------------------------------------------------
    // Login
    // -------------------------------------------------------------------------------

    /** POST /auth/login. `passwordMatches` stands for the bcrypt comparison of the sent
        password with the stored hash, and `sign` for issuing a one-hour token that carries
        the user id. An unknown email is a 404, a failed comparison a 401; only a user found
        by email whose password matches gets a token, and it is that user's token. */
    method Login(email: string, password: string, passwordMatches: (string, string) -> bool,
                 sign: int -> string) returns (r: Response<string>)
      requires Valid()
      ensures (forall id :: id in users ==> users[id].email != email) ==> r == Err(404, UsuarioNotFound)
      ensures forall id :: id in users && users[id].email == email ==>
                if passwordMatches(password, users[id].password) then r == Ok(200, sign(id))
                else r == Err(401, PasswordInvalid)
    {
      if id :| id in users && users[id].email == email {
        if !passwordMatches(password, users[id].password) {
          return Err(401, PasswordInvalid);
        }
        return Ok(200, sign(id));
      }
      return Err(404, UsuarioNotFound);
    }
  }

  /** Request scenarios on an empty database, derived from the contracts alone: a rating of
      11 is refused and nothing is written; a movie that does not exist is a 404; a category
      id that does not exist blocks the movie; an unknown email cannot log in. */
  method Scenarios(passwordMatches: (string, string) -> bool, sign: int -> string)
  {
    var db := new Store();
    var rated := db.CreateRating(MovieKind, 1, 1, 11);
    assert rated == Err(400, RatingOutOfRange) && db.ratings == PerKind(map[], map[]);
    var shown := db.GetMovie(999);
    assert shown == Err(404, MovieNotFound);
    var date := LocalTime(CalendarDate(2024, 0, 1), 0, 0, 0);
    assert FoundIds({}, [5]) == {};
    var created := db.CreateMovie(MovieRequest("Dune", "Sci-Fi", date, None, Some([5])));
    assert created == Err(400, CategoriesMissing) && db.movies == map[];
    var login := db.Login("a@x.com", "p", passwordMatches, sign);
    assert login == Err(404, UsuarioNotFound);
  }

  /** A movie created after another was deleted does not get the deleted one's id. */
  method IdNotReusedScenario(date: LocalTime)
  {
    var db := new Store();
    var first := db.CreateMovie(MovieRequest("Dune", "Sci-Fi", date, None, None));
    assert first.Ok?;
    var removed := db.DeleteMovie(first.body.0);
    var second := db.CreateMovie(MovieRequest("Dune", "Sci-Fi", date, None, None));
    assert second.Ok? && second.body.0 != first.body.0;
  }
}
